=== FILE: README.md ===
# OpenGL-Desert: camera, helicopter patrol and input mapper

A Dafny model of the sequential logic inside the OpenGL-Desert scene renderer:

- the free first-person **camera** (`gps::Camera`): its constructor, `move` in
  five directions, `rotate` from pitch and yaw, and the arguments it hands to
  `glm::lookAt`;
- the **helicopter patrol**: the four-phase `HELIANIM` state machine advanced by
  `renderHelicopter`, with its direction flags, leg and turn accumulators, blade
  spin and clock bookkeeping, and the fact that each frame steps it three times
  (once in each of the reflection, refraction and main passes);
- the **input mapper**: the `pressedKeys` table, the fog toggle and the Escape
  close request of the key callback, the pitch clamp and camera rotation of the
  cursor callback, and `processMovement`, which turns held W/S/A/D keys into moves.

Everything is over Dafny `real`, so float rounding is abstracted away. Cosine and
sine are uninterpreted functions supplied by the caller (`Camera.Trig`, taking
degrees). `glm::normalize(v)` is modelled as `v` scaled by a caller-supplied
positive factor, standing for the reciprocal length the model does not compute.
The clock (`glfwGetTime`) is a parameter: each helicopter step takes the clock
reading `now` and keeps the previous one. Model matrices are logs of the
transforms applied to them (`Helicopter.MatOp`), not computed matrices.

Files: `vectors.dfy` (vector algebra), `camera.dfy` (Camera.cpp),
`helicopter.dfy` (the animation part of main.cpp), `input.dfy` (the input
callbacks and `processMovement` of main.cpp).

Behaviour of the code worth knowing when reading the model:

- The leg accumulator is not reset at every transition. It is left as it is
  when the outbound LEFT leg ends, and set to `-movementSpeed * 6000` when the
  return FORWARD leg ends, so the following return leg starts far out
  (main.cpp:522, 530-535, 561, 573). `Helicopter.Inv` records the resulting
  range for each place in the patrol.
- `renderHelicopter` runs in each of the three render passes, and each call
  reads the clock again. `Helicopter.Frame` is therefore three steps, and the
  three passes draw three successive body matrices.
- `heliBladeAngle` is never reduced modulo 360 and grows without bound
  (main.cpp:597).
- The pitch range is closed, [-87, 87]: a pitch of exactly 87 degrees passes
  the clamp unchanged.
- LEFT, RIGHT, FORWARD and BACKWARD move along the camera's right or front
  vector and may change several coordinates; only DOWN changes exactly one.
- The constructor leaves right unnormalised, while `rotate` normalises it.

## Model

| member | source | states |
|---|---|---|
| Camera.Make | Camera.cpp:7-17 | the constructor keeps position, target and up as given; front is a positive multiple of target minus position; right is the unnormalised cross product of front and up, hence orthogonal to both |
| Camera.Move | Camera.cpp:26-46 | a move translates the position by speed along the direction's axis (minus right, right, front, minus front, minus world-up); front, right, up and target never change; DOWN changes only y, lowering it by speed |
| Camera.ForwardBackwardRoundTrip | Camera.cpp:36-41 | FORWARD then BACKWARD by the same speed restores the camera exactly |
| Camera.LeftRightRoundTrip | Camera.cpp:30-35 | LEFT then RIGHT by the same speed restores the camera exactly |
| Camera.MovesCommute | Camera.cpp:26-46 | any two moves give the same camera in either order |
| Camera.MoveLeavesTargetStale | Camera.cpp:20-46 | starting from target == position + front, a non-zero move leaves the stored target different from the point the view matrix looks at |
| Camera.Rotate | Camera.cpp:51-63 | rotate keeps the position, sets front by the spherical conversion of pitch and yaw, puts the target at position + front, makes right a positive multiple of cross(front, world up), so with zero y and orthogonal to front, and makes up a positive multiple of cross(right, front), so orthogonal to both |
| Camera.RotateForgetsOrientation | Camera.cpp:51-63 | the result of rotate depends on the old camera only through its position, so repeated rotations cannot drift |
| Camera.RotateSyncsView | Camera.cpp:20-63 | after rotate the view matrix looks exactly at the stored target |
| Camera.ViewMatrix | Camera.cpp:20-23 | the view looks from the position along front, with the stored up vector |
| Helicopter.UpdateDelta | main.cpp:90-94 | for a non-negative elapsed time both deltas are non-negative (positive time gives positive displacement); the angle delta is 600 times the displacement |
| Helicopter.Step | main.cpp:502-605 | the phase stays or advances one place around FORWARD, ROTATING, LEFT, ROTATING2; every transition zeroes the turn accumulator; backward flips exactly when FORWARD is left and right exactly when LEFT is left; on a leg that continues the turn accumulator is untouched and the leg accumulator falls by deltaMov outbound and rises by it on return; an outbound leg exits at -movementSpeed*6000 and a return leg at 0, leaving the accumulator at 0 (FORWARD outbound, LEFT return), -movementSpeed*6000 (FORWARD return) or its last value (LEFT outbound); ROTATING exits at 90 degrees inclusive and ROTATING2 only beyond 90; turns grow by five times the displacement and leave the leg accumulator alone; the body gets the same translation -deltaMov on z on every leg and a turn of 5*deltaMov on every turn; the blade angle grows by deltaAngle and the blade matrix is the body matrix followed by the blade spin |
| Helicopter.InitInv | main.cpp:74-89 | the start-up state is FORWARD with both flags clear and zero accumulators, at place 0 of the patrol, and satisfies the patrol invariant |
| Helicopter.StepInv | main.cpp:510-589 | a step keeps the patrol invariant and advances the place in the two-lap patrol by one exactly when the phase changes |
| Helicopter.RunInv | main.cpp:510-589 | along any run of steps the invariant holds and the place has advanced by the number of transitions modulo eight |
| Helicopter.TwoLapsReturnHome | main.cpp:510-589 | from start-up, the helicopter is in FORWARD with both flags clear exactly when the number of transitions is a multiple of eight (two laps) |
| Helicopter.ArriveHomeResets | main.cpp:578-587 | the transition that completes two laps leaves both the leg and the turn accumulator at zero |
| Helicopter.BladeSpinAccumulates | main.cpp:506-508 | the blade angle is the start angle plus the angle delta of the time since the first clock reading, and never decreases while the clock runs forward |
| Helicopter.Frame | main.cpp:607-663 | a frame steps the animation three times, once per pass; each pass draws a body matrix one transform longer than the previous pass's and a blade matrix that is its body matrix followed by its own spin; the blade angle grows by the angle delta of the time since the previous frame's last reading |
| Helicopter.FrameIsThreeSteps | main.cpp:627-657 | pass i of a frame (reflection, refraction, main) leaves the state that the first i + 1 steps of the run reach, so every pass is exactly one step |
| Input.KeyEvent | main.cpp:181-208 | a press of a key in 0..1023 marks it down and a release marks it up; other keys, repeats and keys outside the table leave the table alone; fog flips exactly on a press of F; Escape pressed asks the window to close |
| Input.FogParity | main.cpp:188-207 | after any sequence of key events fog differs from its start value exactly when F was pressed an odd number of times |
| Input.StartUpFog | main.cpp:385-388 | fog starts off, so after any sequence of key events it is on exactly when F was pressed an odd number of times |
| Input.KeyTableRemembersLastEvent | main.cpp:188-207 | a key of the table is down exactly when its last press or release was a press, and keeps its start value if it had none |
| Input.ClampPitch | main.cpp:215-222 | after the clamp pitch/sensitivity lies in [-87, 87]; a value already in range is unchanged; a value beyond it becomes exactly plus or minus 86.99 times the sensitivity |
| Input.ClampIdempotent | main.cpp:215-222 | clamping a clamped pitch changes nothing |
| Input.CursorMove | main.cpp:210-230 | the cursor callback takes x as yaw and the clamped y as pitch, and rotates the camera by an angle within [-87, 87] degrees, keeping the position, syncing the target, making right a positive multiple of cross(front, world up), so horizontal and orthogonal to front, and up a positive multiple of cross(right, front), so orthogonal to both |
| Input.CursorFacesPositiveZ | main.cpp:210-224 | with exact trigonometry, a cursor at (900, 0) (yaw 90 degrees, pitch 0) turns the camera to face positive z |
| Input.ProcessMovement | main.cpp:232-278 | held W/S/A/D keys displace the position by the camera speed times the W-minus-S balance along front plus the D-minus-A balance along right; the orientation and target are unchanged |
| Input.MoveIfHeld | main.cpp:234-243 | one key block: a held key moves the position by the camera speed along that direction's axis, a key that is up leaves it where it is; the orientation and target are unchanged either way |
| Input.OppositeKeysCancel | main.cpp:232-278 | with W and S held alike and A and D held alike the camera does not move |

## Left out

- GL and GLFW calls: uniform uploads, framebuffer, texture and renderbuffer setup, draw calls, error polling, window creation and resizing, callback registration. They are I/O against a foreign API.
- The pass orchestration of `renderScene` beyond the three animation steps: clip planes, projections, the mirrored reflection camera, skybox and water drawing. They are GPU side effects with nothing returned.
- The contents of `glm::lookAt`, `perspective`, `ortho`, `translate`, `rotate` and `inverseTranspose`: the view is the triple of lookAt arguments, and model matrices are logs of transforms.
- The values of cosine, sine and normalisation, and any unit-length claim: they are float and trigonometric numerics. Orthogonality is proved exactly, unit length is not stated.
- Helicopter.Step: models only the z component of `HeliPos`; the x and y components are written (reset) at three leg exits but never read.
- Helicopter.Step: the leg threshold `movementSpeed * 6000` is the real number 60, not its single-precision value.
- Model, shader, texture and skybox loading.

=== FILE: camera.dfy ===
/** The free first-person camera of Camera.cpp: a position, a look-at target and
    the front/right/up frame, changed by `move` and `rotate`.

    The math library is kept abstract. Cosine and sine are uninterpreted
    functions (a `Trig` value supplied by the caller), and `glm::normalize(v)`
    is `v` scaled by some positive factor: the reciprocal of a float square root
    that the model does not compute. */
module Camera {
  import opened Vectors

  datatype Direction = MoveLeft | MoveRight | MoveForward | MoveBackward | MoveDown

  datatype CameraState = CameraState(position: Vec3, target: Vec3, front: Vec3, right: Vec3, up: Vec3)

  /** Cosine and sine of an angle given in degrees (glm::radians folded in). */
  datatype Trig = Trig(cos: real -> real, sin: real -> real)

  /** The arguments of glm::lookAt, which builds the view matrix. */
  datatype LookAt = LookAt(eye: Vec3, center: Vec3, up: Vec3)

  /** glm::normalize, with `k > 0` standing for 1 / |v|. */
  function Normalize(v: Vec3, k: real): Vec3
    requires k > 0.0
  {
    Scale(v, k)
  }

  /** The constructor: position, target and up are stored as given, front
      points from the position towards the target, and right is the
      unnormalised cross product of front and up. */
  function Make(position: Vec3, target: Vec3, up: Vec3, k: real): (c: CameraState)
    requires k > 0.0
    ensures c.position == position && c.target == target && c.up == up
    ensures c.front == Scale(Sub(target, position), k)
    ensures c.right == Cross(c.front, up)
    ensures Dot(c.right, c.front) == 0.0 && Dot(c.right, c.up) == 0.0
  {
    var front := Normalize(Sub(target, position), k);
    CrossOrthogonal(front, up);
    CameraState(position, target, front, Cross(front, up), up)
  }

  /** The axis along which `Move` translates the position, stated
      independently of `Move` itself. */
  function Heading(c: CameraState, dir: Direction): Vec3
  {
    match dir
    case MoveLeft => Scale(c.right, -1.0)
    case MoveRight => c.right
    case MoveForward => c.front
    case MoveBackward => Scale(c.front, -1.0)
    case MoveDown => Scale(WorldUp, -1.0)
  }

  /** `move`: translate the position by `speed` along the direction's axis.
      Nothing else changes; in particular the target is not re-synchronised
      with the new position. */
  function Move(c: CameraState, dir: Direction, speed: real): (m: CameraState)
    ensures m.position == Add(c.position, Scale(Heading(c, dir), speed))
    ensures m.front == c.front && m.right == c.right && m.up == c.up && m.target == c.target
    ensures dir == MoveDown ==>
              m.position.x == c.position.x && m.position.z == c.position.z && m.position.y == c.position.y - speed
  {
    match dir
    case MoveLeft => c.(position := Sub(c.position, Scale(c.right, speed)))
    case MoveRight => c.(position := Add(c.position, Scale(c.right, speed)))
    case MoveForward => c.(position := Add(c.position, Scale(c.front, speed)))
    case MoveBackward => c.(position := Sub(c.position, Scale(c.front, speed)))
    case MoveDown => c.(position := c.position.(y := c.position.y - speed))
  }

  /** The front vector for a pitch and a yaw, by the spherical-to-Cartesian
      conversion. */
  function FrontFor(trig: Trig, pitch: real, yaw: real): Vec3
  {
    Vec3(trig.cos(yaw) * trig.cos(pitch), trig.sin(pitch), trig.sin(yaw) * trig.cos(pitch))
  }

  /** `rotate`: front is recomputed from the angles, the target is put one
      front-length ahead of the position, right is re-anchored on the world
      vertical axis and up is rebuilt from right and front. `kRight` and `kUp`
      are the positive factors of the two normalisations. */
  function Rotate(c: CameraState, pitch: real, yaw: real, trig: Trig, kRight: real, kUp: real): (r: CameraState)
    requires kRight > 0.0 && kUp > 0.0
    ensures r.position == c.position
    ensures r.front == FrontFor(trig, pitch, yaw)
    ensures r.target == Add(r.position, r.front)
    ensures r.right == Scale(Cross(r.front, WorldUp), kRight)
    ensures r.up == Scale(Cross(r.right, r.front), kUp)
    ensures r.right.y == 0.0
    ensures Dot(r.right, r.front) == 0.0
    ensures Dot(r.up, r.right) == 0.0 && Dot(r.up, r.front) == 0.0
  {
    var front := FrontFor(trig, pitch, yaw);
    var right := Normalize(Cross(front, WorldUp), kRight);
    var up := Normalize(Cross(right, front), kUp);
    CrossOrthogonal(front, WorldUp);
    DotScale(Cross(front, WorldUp), front, kRight);
    CrossOrthogonal(right, front);
    DotScale(Cross(right, front), right, kUp);
    DotScale(Cross(right, front), front, kUp);
    CameraState(c.position, Add(c.position, front), front, right, up)
  }

  /** `getViewMatrix`: look from the position one front-length ahead, with the
      stored up vector. */
  function ViewMatrix(c: CameraState): (v: LookAt)
    ensures Sub(v.center, v.eye) == c.front
    ensures v.eye == c.position && v.up == c.up
  {
    LookAt(c.position, Add(c.position, c.front), c.up)
  }

  /** Moving forward and then backward by the same amount restores the camera. */
  lemma ForwardBackwardRoundTrip(c: CameraState, speed: real)
    ensures Move(Move(c, MoveForward, speed), MoveBackward, speed) == c
  {
  }

  /** Moving left and then right by the same amount restores the camera. */
  lemma LeftRightRoundTrip(c: CameraState, speed: real)
    ensures Move(Move(c, MoveLeft, speed), MoveRight, speed) == c
  {
  }

  /** Moves commute: the frame they translate along is never changed by a move. */
  lemma MovesCommute(c: CameraState, d1: Direction, s1: real, d2: Direction, s2: real)
    ensures Move(Move(c, d1, s1), d2, s2) == Move(Move(c, d2, s2), d1, s1)
  {
  }

  /** A move along a non-zero axis by a non-zero amount breaks `target ==
      position + front`: after it the view matrix no longer looks at the
      stored target. */
  lemma MoveLeavesTargetStale(c: CameraState, dir: Direction, speed: real)
    requires c.target == Add(c.position, c.front)
    requires speed != 0.0 && Heading(c, dir) != Zero
    ensures ViewMatrix(Move(c, dir, speed)).center != Move(c, dir, speed).target
  {
    // Move keeps the target, so the view centre is off it by speed * Heading.
  }

  /** `rotate` forgets the previous orientation: two cameras at the same
      position end up identical, so no drift accumulates across calls. */
  lemma RotateForgetsOrientation(c1: CameraState, c2: CameraState, pitch: real, yaw: real, trig: Trig, kRight: real, kUp: real)
    requires kRight > 0.0 && kUp > 0.0
    requires c1.position == c2.position
    ensures Rotate(c1, pitch, yaw, trig, kRight, kUp) == Rotate(c2, pitch, yaw, trig, kRight, kUp)
  {
  }

  /** After `rotate` the view matrix looks exactly at the stored target. */
  lemma RotateSyncsView(c: CameraState, pitch: real, yaw: real, trig: Trig, kRight: real, kUp: real)
    requires kRight > 0.0 && kUp > 0.0
    ensures ViewMatrix(Rotate(c, pitch, yaw, trig, kRight, kUp)).center == Rotate(c, pitch, yaw, trig, kRight, kUp).target
  {
  }
}

=== FILE: helicopter.dfy ===
/** The helicopter patrol of main.cpp: a four-phase state machine (`HELIANIM`)
    advanced by `renderHelicopter`, which reads the clock, turns the elapsed
    time into a displacement and an angle (`updateDelta`), moves or turns the
    body transform and spins the blades.

    Matrices are kept as logs of the transforms applied to them, starting from
    the body's initial placement 100 units up. `HeliPos` is modelled by its z
    component, the only one ever read. */
module Helicopter {
  import opened Vectors

  const MovementSpeed: real := 0.01
  const AngularSpeed: real := 10.0

  /** A straight leg ends once the helicopter is `movementSpeed * 6000` out. */
  const LegLength: real := MovementSpeed * 6000.0

  /** The turn angle in degrees: ROTATING ends once its accumulator reaches
      it, ROTATING2 only once the accumulator exceeds it. */
  const TurnAngle: real := 90.0

  datatype Phase = Forward | Rotating | Left | Rotating2

  /** One transform applied to a model matrix: a translation or a rotation of
      so many degrees about the vertical axis. */
  datatype MatOp = Translate(offset: Vec3) | RotateY(degrees: real)

  /** The animation globals: phase, the two direction flags, the leg
      accumulator `HeliPos.z`, the turn accumulator `heliAngle`, the blade spin
      `heliBladeAngle`, the last clock reading, and the body matrix. */
  datatype Heli = Heli(phase: Phase, backward: bool, right: bool, pos: real, angle: real,
                       bladeAngle: real, lastTime: real, body: seq<MatOp>)

  /** What one call uploads: the new state, then the body matrix and the blade
      matrix it draws with. */
  datatype StepResult = StepResult(next: Heli, bodyModel: seq<MatOp>, bladeModel: seq<MatOp>)

  datatype Deltas = Deltas(mov: real, angle: real)

  /** `updateDelta`: the displacement and the blade angle for an elapsed time. */
  function UpdateDelta(elapsed: real): (d: Deltas)
    ensures elapsed >= 0.0 ==> d.mov >= 0.0 && d.angle >= 0.0
    ensures d.angle == 600.0 * d.mov
    ensures elapsed > 0.0 ==> d.mov > 0.0
  {
    Deltas(MovementSpeed * elapsed * 500.0, AngularSpeed * elapsed * 300.0)
  }

  /** The state before the first frame, with `lastTimeStamp` read at start-up. */
  function Init(t0: real): Heli
  {
    Heli(Forward, false, false, 0.0, 0.0, 0.0, t0, [Translate(Vec3(0.0, 100.0, 0.0))])
  }

  /** The patrol cycle FORWARD -> ROTATING -> LEFT -> ROTATING2 -> FORWARD. */
  function Next(p: Phase): Phase
  {
    match p
    case Forward => Rotating
    case Rotating => Left
    case Left => Rotating2
    case Rotating2 => Forward
  }

  predicate IsLeg(p: Phase)
  {
    p == Forward || p == Left
  }

  /** A straight leg is outbound while its flag is clear and a return leg once set. */
  predicate Outbound(s: Heli)
  {
    (s.phase == Forward && !s.backward) || (s.phase == Left && !s.right)
  }

  /** One call of `renderHelicopter` at clock reading `now`. */
  function Step(s: Heli, now: real): (r: StepResult)
    // the phase stays or advances one place around the cycle
    ensures r.next.phase == s.phase || r.next.phase == Next(s.phase)
    // every transition clears the turn accumulator
    ensures r.next.phase != s.phase ==> r.next.angle == 0.0
    // `backward` flips exactly when FORWARD is left, `right` exactly when LEFT is left
    ensures r.next.backward != s.backward <==> (s.phase == Forward && r.next.phase != s.phase)
    ensures r.next.right != s.right <==> (s.phase == Left && r.next.phase != s.phase)
    // a leg exits on its threshold: outbound at -LegLength, return at 0
    ensures IsLeg(s.phase) && Outbound(s) ==>
              (r.next.phase != s.phase <==> s.pos - UpdateDelta(now - s.lastTime).mov <= -LegLength)
    ensures IsLeg(s.phase) && !Outbound(s) ==>
              (r.next.phase != s.phase <==> s.pos + UpdateDelta(now - s.lastTime).mov >= 0.0)
    // a turn grows by five times the displacement; ROTATING exits at 90, ROTATING2 only beyond it
    ensures s.phase == Rotating ==>
              (r.next.phase != s.phase <==> s.angle + 5.0 * UpdateDelta(now - s.lastTime).mov >= TurnAngle)
    ensures s.phase == Rotating2 ==>
              (r.next.phase != s.phase <==> s.angle + 5.0 * UpdateDelta(now - s.lastTime).mov > TurnAngle)
    // on a leg that continues, the accumulator moves by the displacement: down outbound, up on return
    ensures IsLeg(s.phase) && r.next.phase == s.phase ==>
              r.next.pos == (if Outbound(s) then s.pos - UpdateDelta(now - s.lastTime).mov
                             else s.pos + UpdateDelta(now - s.lastTime).mov)
    // a leg step that does not end the leg leaves the turn accumulator alone
    ensures IsLeg(s.phase) && r.next.phase == s.phase ==> r.next.angle == s.angle
    // the value the accumulator takes when a leg ends
    ensures s.phase == Forward && r.next.phase != s.phase ==> r.next.pos == (if s.backward then -LegLength else 0.0)
    ensures s.phase == Left && r.next.phase != s.phase ==>
              r.next.pos == (if s.right then 0.0 else s.pos - UpdateDelta(now - s.lastTime).mov)
    ensures !IsLeg(s.phase) ==> r.next.pos == s.pos
    ensures !IsLeg(s.phase) && r.next.phase == s.phase ==>
              r.next.angle == s.angle + 5.0 * UpdateDelta(now - s.lastTime).mov
    // the body gets the same local translation on every leg, whatever the flag, and the turn on every turn
    ensures IsLeg(s.phase) ==> r.next.body == s.body + [Translate(Vec3(0.0, 0.0, -UpdateDelta(now - s.lastTime).mov))]
    ensures !IsLeg(s.phase) ==> r.next.body == s.body + [RotateY(5.0 * UpdateDelta(now - s.lastTime).mov)]
    // the blades spin by the angle delta; their matrix is the body's followed by the spin
    ensures r.next.bladeAngle == s.bladeAngle + UpdateDelta(now - s.lastTime).angle
    ensures r.next.lastTime == now
    ensures r.bodyModel == r.next.body
    ensures r.bladeModel == r.bodyModel + [RotateY(r.next.bladeAngle)]
  {
    var d := UpdateDelta(now - s.lastTime);
    var dm := d.mov;
    var s1 :=
      match s.phase
      case Left =>
        var body := s.body + [Translate(Vec3(0.0, 0.0, -dm))];
        if s.right then
          var pos := s.pos + dm;
          if pos >= 0.0 then s.(phase := Rotating2, angle := 0.0, pos := 0.0, right := !s.right, body := body)
          else s.(pos := pos, body := body)
        else
          var pos := s.pos - dm;
          if pos <= -LegLength then s.(phase := Rotating2, angle := 0.0, pos := pos, right := !s.right, body := body)
          else s.(pos := pos, body := body)
      case Rotating =>
        var body := s.body + [RotateY(5.0 * dm)];
        var angle := s.angle + 5.0 * dm;
        if angle >= TurnAngle then s.(phase := Left, angle := 0.0, body := body)
        else s.(angle := angle, body := body)
      case Forward =>
        var body := s.body + [Translate(Vec3(0.0, 0.0, -dm))];
        if s.backward then
          var pos := s.pos + dm;
          if pos >= 0.0 then s.(phase := Rotating, angle := 0.0, backward := !s.backward, pos := -LegLength, body := body)
          else s.(pos := pos, body := body)
        else
          var pos := s.pos - dm;
          if pos <= -LegLength then s.(phase := Rotating, angle := 0.0, backward := !s.backward, pos := 0.0, body := body)
          else s.(pos := pos, body := body)
      case Rotating2 =>
        var body := s.body + [RotateY(dm * 5.0)];
        var angle := s.angle + 5.0 * dm;
        if angle > TurnAngle then s.(phase := Forward, angle := 0.0, body := body)
        else s.(angle := angle, body := body);
    var next := s1.(bladeAngle := s.bladeAngle + d.angle, lastTime := now);
    StepResult(next, next.body, next.body + [RotateY(next.bladeAngle)])
  }

  /** Running one more step extends the run. */
  lemma RunSnoc(s: Heli, times: seq<real>, now: real)
    ensures Run(s, times + [now]) == Step(Run(s, times), now).next
  {
    assert (times + [now])[..|times|] == times;
  }

  /** Whether one step changes the phase. */
  predicate Transits(s: Heli, now: real)
  {
    Step(s, now).next.phase != s.phase
  }

  /** The state after one step per clock reading in `times`. */
  function Run(s: Heli, times: seq<real>): Heli
    decreases |times|
  {
    if |times| == 0 then s
    else Step(Run(s, times[..|times| - 1]), times[|times| - 1]).next
  }

  /** The number of phase changes along `Run(s, times)`. */
  function Transitions(s: Heli, times: seq<real>): nat
    decreases |times|
  {
    if |times| == 0 then 0
    else Transitions(s, times[..|times| - 1]) + (if Transits(Run(s, times[..|times| - 1]), times[|times| - 1]) then 1 else 0)
  }

  /** Place in the two-lap patrol, 0..7, read off phase and flags: each phase is
      visited once with each value of its own flag. */
  function Lap(s: Heli): nat
  {
    match s.phase
    case Forward => if s.backward then 4 else 0
    case Rotating => if s.backward then 1 else 5
    case Left => if s.backward then 2 else 6
    case Rotating2 => if s.backward then 3 else 7
  }

  /** The invariant of every reachable state: the flags agree with each other
      as the patrol dictates, and each accumulator is within the range its lap
      place allows. */
  predicate Inv(s: Heli)
  {
    && (s.phase == Forward || s.phase == Rotating2 ==> s.right == s.backward)
    && (s.phase == Rotating || s.phase == Left ==> s.right != s.backward)
    && (IsLeg(s.phase) ==> s.angle == 0.0)
    && (s.phase == Rotating ==> s.angle < TurnAngle)
    && (s.phase == Rotating2 ==> s.angle <= TurnAngle)
    && match Lap(s)
       case 0 => s.pos > -LegLength
       case 1 => s.pos == 0.0
       case 2 => s.pos > -LegLength
       case 3 => s.pos <= -LegLength
       case 4 => s.pos < 0.0
       case 5 => s.pos == -LegLength
       case 6 => s.pos < 0.0
       case _ => s.pos == 0.0
  }

  /** The place where both laps start and end: FORWARD with both flags clear. */
  predicate AtHome(s: Heli)
  {
    s.phase == Forward && !s.backward && !s.right
  }

  /** The start-up state satisfies the invariant, at place 0. */
  lemma InitInv(t0: real)
    ensures Inv(Init(t0)) && Lap(Init(t0)) == 0 && AtHome(Init(t0))
  {
  }

  /** One step keeps the invariant and moves one place on exactly when the
      phase changes. */
  lemma StepInv(s: Heli, now: real)
    requires Inv(s)
    ensures Inv(Step(s, now).next)
    ensures Lap(Step(s, now).next) == if Transits(s, now) then (Lap(s) + 1) % 8 else Lap(s)
  {
  }

  /** Along any run from a reachable state the invariant holds and the place
      has advanced by the number of transitions, modulo eight. */
  lemma {:induction false} RunInv(s: Heli, times: seq<real>)
    requires Inv(s)
    ensures Inv(Run(s, times))
    ensures Lap(Run(s, times)) == (Lap(s) + Transitions(s, times)) % 8
    decreases |times|
  {
    if |times| > 0 {
      var prefix, now := times[..|times| - 1], times[|times| - 1];
      RunInv(s, prefix);
      var p := Run(s, prefix);
      StepInv(p, now);
      var k := Lap(s) + Transitions(s, prefix);
      assert Transitions(s, times) == Transitions(s, prefix) + (if Transits(p, now) then 1 else 0);
      ModEightSucc(k);
    }
  }

  lemma ModEightSucc(k: nat)
    ensures (k % 8 + 1) % 8 == (k + 1) % 8
  {
  }

  /** From start-up, the helicopter is back in FORWARD with both flags clear
      exactly when the number of transitions so far is a multiple of eight:
      two laps of the four-phase cycle. */
  lemma TwoLapsReturnHome(t0: real, times: seq<real>)
    ensures AtHome(Run(Init(t0), times)) <==> Transitions(Init(t0), times) % 8 == 0
  {
    InitInv(t0);
    RunInv(Init(t0), times);
  }

  /** The step that completes two laps, leaving place 7 (the second
      ROTATING2) for place 0, leaves both accumulators zero, as at start-up. */
  lemma ArriveHomeResets(p: Heli, now: real)
    requires Inv(p) && Transits(p, now) && Lap(Step(p, now).next) == 0
    ensures AtHome(Step(p, now).next)
    ensures Step(p, now).next.pos == 0.0 && Step(p, now).next.angle == 0.0
  {
    // Only place 7, ROTATING2 with pos 0, steps to place 0; turns keep pos.
    StepInv(p, now);
  }

  /** Clock readings that never go backwards from `t0`. */
  predicate Monotone(t0: real, times: seq<real>)
  {
    && (forall i :: 0 <= i < |times| ==> t0 <= times[i])
    && (forall i, j :: 0 <= i <= j < |times| ==> times[i] <= times[j])
  }

  /** The blade angle is the total angle delta since the first reading: the
      per-call elapsed times telescope, so the spin depends only on the last
      clock reading. With a clock that never goes backwards it never decreases. */
  lemma {:induction false} BladeSpinAccumulates(s: Heli, times: seq<real>)
    ensures Run(s, times).lastTime == if |times| == 0 then s.lastTime else times[|times| - 1]
    ensures Run(s, times).bladeAngle == s.bladeAngle + UpdateDelta(Run(s, times).lastTime - s.lastTime).angle
    ensures Monotone(s.lastTime, times) ==> Run(s, times).bladeAngle >= s.bladeAngle
    decreases |times|
  {
    if |times| > 0 {
      var prefix := times[..|times| - 1];
      BladeSpinAccumulates(s, prefix);
    }
  }

  /** One rendered frame: `renderHelicopter` runs in the reflection, the
      refraction and the main pass, each reading the clock anew, so a frame is
      three steps and the three passes draw three successive body matrices. */
  function Frame(s: Heli, t1: real, t2: real, t3: real): (passes: seq<StepResult>)
    ensures |passes| == 3
    ensures passes[2].next.lastTime == t3
    ensures passes[2].next.bladeAngle == s.bladeAngle + UpdateDelta(t3 - s.lastTime).angle
    ensures |passes[0].bodyModel| == |s.body| + 1
    ensures forall i :: 0 <= i < 2 ==>
              passes[i].bodyModel < passes[i + 1].bodyModel && |passes[i + 1].bodyModel| == |passes[i].bodyModel| + 1
    // every pass draws its blades as its body followed by its own spin
    ensures forall i :: 0 <= i < 3 ==> passes[i].bladeModel == passes[i].bodyModel + [RotateY(passes[i].next.bladeAngle)]
  {
    var reflection := Step(s, t1);
    var refraction := Step(reflection.next, t2);
    var main := Step(refraction.next, t3);
    [reflection, refraction, main]
  }

  /** Pass `i` of a frame ends where the first `i + 1` steps of `Run` do. */
  lemma FrameIsThreeSteps(s: Heli, t1: real, t2: real, t3: real)
    ensures forall i :: 0 <= i < 3 ==> Frame(s, t1, t2, t3)[i].next == Run(s, [t1, t2, t3][..i + 1])
  {
    assert [t1, t2, t3][..1] == [t1] && [t1, t2, t3][..2] == [t1, t2] && [t1, t2, t3][..3] == [t1, t2, t3];
    assert [] + [t1] == [t1] && [t1] + [t2] == [t1, t2] && [t1, t2] + [t3] == [t1, t2, t3];
    RunSnoc(s, [], t1);
    RunSnoc(s, [t1], t2);
    RunSnoc(s, [t1, t2], t3);
  }
}

=== FILE: input.dfy ===
/** The input mapper of main.cpp: the key callback's press/release table, the
    fog toggle and the close request; the cursor callback's pitch clamp and
    camera rotation; and the per-frame translation of held keys into moves. */
module Input {
  import opened Vectors
  import opened Camera

  /** Size of the `pressedKeys` table. */
  const KeyCount: int := 1024

  // GLFW key codes used by the program.
  const KeyA: int := 65
  const KeyD: int := 68
  const KeyF: int := 70
  const KeyS: int := 83
  const KeyW: int := 87
  const KeyEscape: int := 256

  /** The cursor sensitivity: cursor units per degree. */
  const Sensitivity: real := 10.0

  /** Largest |pitch / sensitivity| let through, and the value put in its place. */
  const PitchLimit: real := 87.0
  const PitchClamped: real := 86.99

  /** Distance moved per frame for each held movement key. */
  const CameraSpeed: real := 0.1

  datatype Action = Release | Press | Repeat

  datatype KeyInput = KeyInput(key: int, action: Action)

  datatype Option<T> = None | Some(value: T)

  type KeyTable = t: seq<bool> | |t| == KeyCount witness seq(KeyCount, _ => false)

  datatype InputState = InputState(pressed: KeyTable, fog: bool, shouldClose: bool)

  /** Every key up and fog off, as after start-up. */
  function InitialInput(): InputState
  {
    InputState(seq(KeyCount, _ => false), false, false)
  }

  /** `keyboardCallback`: Escape asks the window to close; within the table a
      press marks the key down (and F flips fog) and a release marks it up;
      repeats and keys outside the table change nothing else. */
  function KeyEvent(s: InputState, e: KeyInput): (r: InputState)
    ensures forall k :: 0 <= k < KeyCount && k != e.key ==> r.pressed[k] == s.pressed[k]
    ensures 0 <= e.key < KeyCount && e.action == Press ==> r.pressed[e.key]
    ensures 0 <= e.key < KeyCount && e.action == Release ==> !r.pressed[e.key]
    ensures !(0 <= e.key < KeyCount) || e.action == Repeat ==> r.pressed == s.pressed
    ensures r.fog != s.fog <==> e.key == KeyF && e.action == Press
    ensures r.shouldClose <==> s.shouldClose || (e.key == KeyEscape && e.action == Press)
  {
    var close := s.shouldClose || (e.key == KeyEscape && e.action == Press);
    if 0 <= e.key < KeyCount then
      match e.action
      case Press => InputState(s.pressed[e.key := true], if e.key == KeyF then !s.fog else s.fog, close)
      case Release => InputState(s.pressed[e.key := false], s.fog, close)
      case Repeat => s.(shouldClose := close)
    else
      s.(shouldClose := close)
  }

  /** The state after a sequence of key events. */
  function KeyEvents(s: InputState, es: seq<KeyInput>): InputState
    decreases |es|
  {
    if |es| == 0 then s else KeyEvent(KeyEvents(s, es[..|es| - 1]), es[|es| - 1])
  }

  /** How many events in `es` are presses of F. */
  function FPresses(es: seq<KeyInput>): nat
    decreases |es|
  {
    if |es| == 0 then 0
    else FPresses(es[..|es| - 1]) + (if es[|es| - 1] == KeyInput(KeyF, Press) then 1 else 0)
  }

  /** Fog is toggled once per F press and never otherwise: after any sequence
      of events it differs from where it started exactly when F was pressed an
      odd number of times. */
  lemma {:induction false} FogParity(s: InputState, es: seq<KeyInput>)
    ensures KeyEvents(s, es).fog == (s.fog != (FPresses(es) % 2 == 1))
    decreases |es|
  {
    if |es| > 0 {
      FogParity(s, es[..|es| - 1]);
    }
  }

  /** Fog starts off, so after any sequence of key events it is on exactly
      when F has been pressed an odd number of times. */
  lemma StartUpFog(es: seq<KeyInput>)
    ensures KeyEvents(InitialInput(), es).fog <==> FPresses(es) % 2 == 1
  {
    FogParity(InitialInput(), es);
  }

  /** The last event in `es` that presses or releases key `k`, if any. */
  function LastPressOrRelease(es: seq<KeyInput>, k: int): (r: Option<bool>)
    decreases |es|
  {
    if |es| == 0 then None
    else if es[|es| - 1].key == k && es[|es| - 1].action == Press then Some(true)
    else if es[|es| - 1].key == k && es[|es| - 1].action == Release then Some(false)
    else LastPressOrRelease(es[..|es| - 1], k)
  }

  /** A key of the table is down exactly when the last press or release of it
      was a press; a key never pressed or released keeps its start value. */
  lemma {:induction false} KeyTableRemembersLastEvent(s: InputState, es: seq<KeyInput>, k: int)
    requires 0 <= k < KeyCount
    ensures KeyEvents(s, es).pressed[k] == match LastPressOrRelease(es, k)
                                         case None => s.pressed[k]
                                         case Some(down) => down
    decreases |es|
  {
    if |es| > 0 {
      KeyTableRemembersLastEvent(s, es[..|es| - 1], k);
    }
  }

  /** The pitch clamp of `mouseCallback`: a pitch beyond 87 degrees either way
      is replaced by 86.99 degrees (in cursor units) on that side. */
  function ClampPitch(pitch: real): (r: real)
    ensures -PitchLimit <= r / Sensitivity <= PitchLimit
    ensures -PitchLimit <= pitch / Sensitivity <= PitchLimit ==> r == pitch
    ensures pitch / Sensitivity > PitchLimit ==> r == PitchClamped * Sensitivity
    ensures pitch / Sensitivity < -PitchLimit ==> r == -PitchClamped * Sensitivity
  {
    var p := if pitch / Sensitivity > 87.0 then Sensitivity * 86.99 else pitch;
    if p / Sensitivity < -87.0 then Sensitivity * -86.99 else p
  }

  /** Clamping twice is clamping once. */
  lemma ClampIdempotent(pitch: real)
    ensures ClampPitch(ClampPitch(pitch)) == ClampPitch(pitch)
  {
  }

  /** The globals `yaw` and `pitch` after a cursor event, and the camera. */
  datatype CursorResult = CursorResult(yaw: real, pitch: real, camera: CameraState)

  /** `mouseCallback`: read the cursor as yaw and pitch, clamp the pitch and
      rotate the camera by the negated pitch and the yaw, in degrees. */
  function CursorMove(c: CameraState, xpos: real, ypos: real, trig: Trig, kRight: real, kUp: real): (r: CursorResult)
    requires kRight > 0.0 && kUp > 0.0
    ensures r.yaw == xpos
    ensures r.pitch == ClampPitch(ypos)
    ensures -PitchLimit <= -r.pitch / Sensitivity <= PitchLimit
    ensures r.camera.position == c.position
    ensures r.camera.front == FrontFor(trig, -r.pitch / Sensitivity, xpos / Sensitivity)
    ensures r.camera.target == Add(r.camera.position, r.camera.front)
    ensures r.camera.right == Scale(Cross(r.camera.front, WorldUp), kRight)
    ensures r.camera.up == Scale(Cross(r.camera.right, r.camera.front), kUp)
    ensures r.camera.right.y == 0.0 && Dot(r.camera.right, r.camera.front) == 0.0
    ensures Dot(r.camera.up, r.camera.right) == 0.0 && Dot(r.camera.up, r.camera.front) == 0.0
  {
    var pitch := ClampPitch(ypos);
    CursorResult(xpos, pitch, Rotate(c, -pitch / Sensitivity, xpos / Sensitivity, trig, kRight, kUp))
  }

  /** With exact trigonometry at 0 and 90 degrees, a cursor at (900, 0) faces
      the camera down the positive z axis. */
  lemma CursorFacesPositiveZ(c: CameraState, trig: Trig, kRight: real, kUp: real)
    requires kRight > 0.0 && kUp > 0.0
    requires trig.cos(90.0) == 0.0 && trig.sin(90.0) == 1.0
    requires trig.cos(0.0) == 1.0 && trig.sin(0.0) == 0.0
    ensures CursorMove(c, 900.0, 0.0, trig, kRight, kUp).camera.front == Vec3(0.0, 0.0, 1.0)
  {
  }

  function Indicator(b: bool): real
  {
    if b then 1.0 else 0.0
  }

  /** `processMovement`: one move per held key among W, S, A, D, in that
      order. The position ends up displaced along front by the W/S balance and
      along right by the D/A balance; nothing else changes. */
  function ProcessMovement(pressed: KeyTable, c: CameraState): (r: CameraState)
    ensures r.position == Add(c.position,
                              Add(Scale(c.front, CameraSpeed * (Indicator(pressed[KeyW]) - Indicator(pressed[KeyS]))),
                                  Scale(c.right, CameraSpeed * (Indicator(pressed[KeyD]) - Indicator(pressed[KeyA])))))
    ensures r.front == c.front && r.right == c.right && r.up == c.up && r.target == c.target
  {
    var c1 := MoveIfHeld(pressed[KeyW], c, MoveForward);
    var c2 := MoveIfHeld(pressed[KeyS], c1, MoveBackward);
    var c3 := MoveIfHeld(pressed[KeyA], c2, MoveLeft);
    MoveIfHeld(pressed[KeyD], c3, MoveRight)
  }

  /** One key of `processMovement`: move by `CameraSpeed` if it is held. */
  function MoveIfHeld(held: bool, c: CameraState, dir: Direction): (r: CameraState)
    ensures r.position == Add(c.position, Scale(Heading(c, dir), CameraSpeed * Indicator(held)))
    ensures r.front == c.front && r.right == c.right && r.up == c.up && r.target == c.target
  {
    if held then Move(c, dir, CameraSpeed) else c
  }

  /** Opposite keys held together cancel: with W and S both down and A and D
      both down the camera does not move. */
  lemma OppositeKeysCancel(pressed: KeyTable, c: CameraState)
    requires pressed[KeyW] == pressed[KeyS] && pressed[KeyA] == pressed[KeyD]
    ensures ProcessMovement(pressed, c) == c
  {
  }
}

=== FILE: vectors.dfy ===
/** Three-component vectors over the reals: the part of glm::vec3 the camera and
    the helicopter use. Float rounding is abstracted away. */
module Vectors {

  datatype Vec3 = Vec3(x: real, y: real, z: real)

  const Zero := Vec3(0.0, 0.0, 0.0)

  /** The fixed vertical axis (0, 1, 0). */
  const WorldUp := Vec3(0.0, 1.0, 0.0)

  function Add(a: Vec3, b: Vec3): Vec3
  {
    Vec3(a.x + b.x, a.y + b.y, a.z + b.z)
  }

  function Sub(a: Vec3, b: Vec3): Vec3
  {
    Vec3(a.x - b.x, a.y - b.y, a.z - b.z)
  }

  function Scale(v: Vec3, k: real): Vec3
  {
    Vec3(v.x * k, v.y * k, v.z * k)
  }

  function Dot(a: Vec3, b: Vec3): real
  {
    a.x * b.x + a.y * b.y + a.z * b.z
  }

  function Cross(a: Vec3, b: Vec3): Vec3
  {
    Vec3(a.y * b.z - a.z * b.y, a.z * b.x - a.x * b.z, a.x * b.y - a.y * b.x)
  }

  /** A cross product is orthogonal to both of its factors. */
  lemma CrossOrthogonal(a: Vec3, b: Vec3)
    ensures Dot(Cross(a, b), a) == 0.0
    ensures Dot(Cross(a, b), b) == 0.0
  {
  }

  /** Scaling one side of a dot product scales the product. */
  lemma DotScale(a: Vec3, b: Vec3, k: real)
    ensures Dot(Scale(a, k), b) == k * Dot(a, b)
    ensures Dot(a, Scale(b, k)) == k * Dot(a, b)
  {
  }
}
